=== FILE: README.md ===
# Retained-state life cycle of a deep-sleeping temperature node

A Dafny model of the core of an ESP32 temperature-sensor firmware. The node wakes from deep sleep, measures, optionally reports over Wi-Fi, and sleeps again. Every deep sleep ends the process, so what carries progress from one boot to the next is a small record in RTC memory (`rtc_store`). That record has a CRC-32 and range checks, and an NVS flash blob backs it up. The model covers:

- the retained store and its NVS backup (`main/rtc_store.c`): validation, update, boot-time repair, backup and restore;
- wake-cause classification and the sleep/window decision (`main/power_manager.c`);
- sampling, measurement bookkeeping and calibration's effect on the store (`main/sensor.c`);
- the per-boot IDLE → MEASURING → SLEEPING machine and the bounded Wi-Fi retry loop (`main/main.c`);
- the store-visible effect of a Wi-Fi connection (`main/wifi_manager.c:116-122`).

A multi-boot life cycle (`LifeCycle`) chains boots. A boot ends in deep sleep, or in a restart: a power loss, a watchdog panic or an abort. RTC memory (`RTC_DATA_ATTR`) survives only a deep-sleep wake-up. Any restart reloads the static initialisers, so the next boot starts from the power-on store with a reset count of 0. A boot may also find the NVS partition erased by `init_nvs` (`main/main.c:30-33`). Over such life cycles the model proves that every deep sleep leaves the measurement count strictly below `REQUIRED_MEASUREMENTS`, under a matching CRC.

Modelling choices:
- **CRC.** `esp_crc32_le` is a parameter `crc: Data -> Uint32` of every operation, so every result holds for any checksum function.
- **Float maths.** The calibration formula is a parameter `resistorOf: real -> real`, mapping the raw average to the new resistor. Floats are `real`.
- **Environment.** Everything the code reads from outside is an input: wake-up cause, button levels, Wi-Fi attempt outcomes, ADC readings, `esp_timer_get_time` values, SNTP success, delivery result and NVS outcomes.
- **Integer widths.** C `int` fields are `Int32`, and `++` wraps in two's complement as the target does (C leaves signed overflow undefined). The elapsed-time subtraction is done in `uint64_t`, modulo 2^64.
- **Dirty writes.** Direct field writes leave the CRC stale, exactly where the code does: `power_manager.c:16`, `sensor.c:88,92,109-110` and `wifi_manager.c:119-120`.
- **Deep sleep.** `esp_deep_sleep` is a terminal `Sleep` value carrying the store left behind and the duration in microseconds.

Behaviours of the code the model keeps:
- `backup_to_nvs` stores the whole data blob, station configuration included.
- `restore_from_nvs` recomputes the CRC without re-checking ranges. A restored store can therefore fail validation.
- `update_rtc_data` does not check ranges. A following validation succeeds exactly when the arguments are in range.
- When built with `SEND_DATA`, a failed delivery makes `measure_and_send` return an error. `handle_measurements` then resets the window, so a delivery failure does affect the counters.
- The conversion does not guard the saturation case (raw average = `ADC_MAX_VALUE`), so no sensor-fault result is claimed for it.
- After Wi-Fi exhaustion, the sleep duration is still decided by `enter_deep_sleep` from the count. A count at the quota takes the long sleep.
- The stale-window check runs only after a successful time sync. Its `uint64_t` subtraction wraps when the stored stamp is ahead of the clock, and the window then counts as expired (`Sensor.StampAheadOfClockExpiresWindow`).
- Calibration can write any resistor value, including a non-positive one.

## Model

| member | source | states |
|---|---|---|
| RtcStore.IsValid | main/rtc_store.c:21-33 | the store validates exactly when boot_count ≥ 0, 0 ≤ measurement_count ≤ REQUIRED_MEASUREMENTS, the resistor is positive, and the stored CRC equals the CRC of the data |
| RtcStore.Update | main/rtc_store.c:35-43 | the four fields take the given values, the station configuration is untouched, the CRC matches the new data; the result validates if and only if the arguments are in range (no range enforcement) |
| RtcStore.Backup | main/rtc_store.c:60-83 | the NVS slot receives the whole data blob when open and write succeed, and keeps its old value otherwise; the RTC store is never written |
| RtcStore.Restore | main/rtc_store.c:86-108 | restore succeeds exactly when open and read succeed and a blob exists; success installs the blob under a fresh CRC, and the result validates iff the blob is in range; failure leaves the store untouched |
| RtcStore.Init | main/rtc_store.c:46-58 | a valid store is kept unchanged; otherwise the NVS blob is restored, else the defaults (0, 0, 0, SERIES_RESISTOR) are written and validate; the result always carries a matching CRC and validates iff the store was valid, no blob was restored, or the blob is in range |
| RtcStore.BackupRestoreRoundTrip | main/rtc_store.c:60-108 | a backup followed by a restore reproduces the backed-up data exactly, station configuration included, whatever the RTC store held in between |
| RtcStore.InitValidUnlessBlobOutOfRange | main/rtc_store.c:46-58 | init leaves an invalid store only when the original store was invalid and the NVS blob it restored is out of range |
| RtcStore.PowerOnInitYieldsDefaults | main/rtc_store.c:7-14 | after a restart with no NVS blob, init leaves the default data in a store that validates |
| PowerManager.IsFreshStart | main/power_manager.c:10-21 | a fresh start is reported exactly when the wake-up cause is not the timer; it zeroes boot_count and increments esp_reset_count, leaving every other field and the CRC untouched; a timer wake-up changes nothing |
| PowerManager.EnterDeepSleep | main/power_manager.c:37-61 | at or over the quota the window is reset and the long MEASUREMENT_WINDOW_SEC sleep chosen; below it the window is kept and the short DEEP_SLEEP_TIME_SEC sleep chosen; boot_count, resistor and configuration survive, the CRC matches, and a non-negative count ends in [0, REQUIRED_MEASUREMENTS) |
| PowerManager.SleptStoreSurvivesInit | main/power_manager.c:37-61 | a store that goes to sleep with in-range fields is kept as it is by the next boot's init |
| Sensor.FirstError | main/sensor.c:55-60 | no error is reported exactly when every read in the sequence succeeded |
| Sensor.Accepted | main/sensor.c:61-67 | the accepted readings all lie in [0, ADC_MAX_VALUE]; there are exactly as many as successful in-range reads, and each value occurs exactly as often as a successful in-range read returned it; none is accepted exactly when no read is both successful and in range |
| Sensor.SampleOf | main/sensor.c:50-74 | sampling fails with a read error exactly when some read failed; it finds no valid reading exactly when no read failed and none is in range; an average is the sum and count of the accepted readings, its count is the number of successful in-range reads, with at least one and at most the number of reads, and a sum within [0, count·ADC_MAX_VALUE] |
| Sensor.SampleAverage | main/sensor.c:50-75 | the sampling loop (return on first error, skip and do not count out-of-range readings) computes exactly the reference result SampleOf |
| Sensor.AverageWithinAdcRange | main/sensor.c:75 | the average of the accepted readings lies in [0, ADC_MAX_VALUE] |
| Sensor.MeasureAndSend | main/sensor.c:43-117 | a missing handle, a read error or no accepted reading returns that error with the store unchanged; otherwise the window is stamped only if empty and the count rises by one, and with time sync a window of MEASUREMENT_WINDOW_SEC or more resets both counters; the CRC, boot_count, resistor and configuration are never touched |
| Sensor.StampAheadOfClockExpiresWindow | main/sensor.c:95 | a window stamp later than the clock reading makes the unsigned elapsed time wrap, so the window counts as expired |
| Sensor.MeasurementCountBounded | main/sensor.c:85-111 | a measurement starting within the quota leaves the count in [0, REQUIRED_MEASUREMENTS + 1] |
| Sensor.Calibrate | main/sensor.c:9-40 | calibration keeps boot_count, zeroes both counters, sets the resistor from the average of all ADC_SAMPLES·2 readings without range filtering, leaves a matching CRC, and backs the new data up to NVS when NVS accepts it |
| Sensor.CalibrationSurvivesStoreCorruption | main/sensor.c:31-39 | a calibration that reached NVS is brought back exactly by a later init of a corrupted store |
| WifiManager.ApplyAttempt | main/wifi_manager.c:116-122 | only a connection made inside wifi_init stores the station configuration and increments boot_count, without refreshing the CRC |
| WifiManager.FirstConnected | main/main.c:63-73 | the index found is the first connecting attempt within the limit, or the limit when all failed |
| WifiManager.Connect | main/main.c:60-73 | between 1 and MAX_WIFI_RETRIES attempts are made; the loop stops at the first success and is connected iff one of the first MAX_WIFI_RETRIES attempts connects; exhaustion leaves the store unchanged |
| WifiManager.ConnectWithRetries | main/main.c:60-73 | the retry loop as written computes exactly the reference Connect |
| Controller.HandleMeasurements | main/main.c:54-112 | Wi-Fi exhaustion zeroes boot_count and keeps the other fields; a failed measurement zeroes both counters and keeps boot_count and resistor; a successful one sleeps at once via enter_deep_sleep; every returned store has a matching CRC |
| Controller.Boot | main/main.c:118-128 | a timer wake-up starts MEASURING with start_measurements set on the initialised store; any other cause starts IDLE with the initialised data except boot_count zeroed, behind the initialised (now stale) CRC, and the reset counted; MEASURING implies start_measurements |
| Controller.IdleStep | main/main.c:136-175 | the station configuration and reset counter are always kept; without a debounced press nothing changes; a debounced calibrate press alone installs exactly calibration's store and NVS and stays IDLE; a debounced start press zeroes the window, keeps boot_count and moves to MEASURING, after both presses with calibration's resistor and NVS; without a calibrate press NVS and resistor are untouched |
| Controller.Step | main/main.c:132-189 | IDLE never sleeps; MEASURING without start_measurements spins unchanged; MEASURING with it sleeps at once after a successful measurement, otherwise moves to SLEEPING with the store handle_measurements returned; SLEEPING always sleeps through enter_deep_sleep; every sleep leaves a matching CRC; "MEASURING implies start_measurements" is preserved |
| Controller.Run | main/main.c:130-189 | with no iteration left the machine is unchanged; a run that sleeps hands the next boot exactly the sleeping store, under a matching CRC, with the reset counter of the boot; from SLEEPING the first iteration sleeps through enter_deep_sleep; a run that stays awake keeps "MEASURING implies start_measurements" |
| Controller.MeasuringEndsInSleep | main/main.c:177-187 | from MEASURING the process reaches deep sleep within two iterations, directly or through SLEEPING |
| LifeCycle.BootIsHealthy | main/main.c:118-128 | any boot starts with the count within the quota, given an NVS blob within the quota |
| LifeCycle.StepKeepsHealthy | main/main.c:132-189 | one iteration keeps the quota bound on store and NVS, or sleeps with the count strictly below the quota and a matching CRC |
| LifeCycle.RunKeepsHealthy | main/main.c:130-189 | a whole boot keeps the quota bound, or sleeps with the count strictly below the quota and a matching CRC |
| LifeCycle.SleepsKeepQuota | main/power_manager.c:39-59 | across any sequence of boots, each ending in deep sleep or cut off by a restart, with NVS erasures between boots, every deep sleep leaves 0 ≤ measurement_count < REQUIRED_MEASUREMENTS under a matching CRC |
| LifeCycle.RestartCountsOneReset | main/power_manager.c:8-21 | after any restart the reset count is reloaded as 0 and then incremented once, so it reads exactly 1, and the node waits in IDLE |
| LifeCycle.TimerWakeResumesSleptStore | main/main.c:118-128 | after an in-range store sleeps, a timer wake-up reconstructs exactly that store and resumes MEASURING |
| LifeCycle.QuotaCompletionTakesWindowSleep | main/power_manager.c:39-48 | the measurement that completes the quota sleeps with both counters reset, and takes the long sleep iff the window had not already been abandoned as stale |
| LifeCycle.WifiExhaustionTakesShortSleep | main/main.c:102-111 | running out of Wi-Fi attempts below the quota zeroes boot_count and ends in the short sleep |

## Left out

- Watchdog and delays (`main/power_manager.c:23-35`, `esp_task_wdt_reset`, `vTaskDelay`): the model assumes every wait ends before the 30 s panic watchdog (`WATCHDOG_TIMEOUT_SEC`, `main/config.h:35`) fires. In the code several waits can outlast it, and a watchdog panic ends the boot in a restart instead of `enter_deep_sleep`. The next boot then sees a non-timer cause and starts fresh from the static initialisers, because RTC memory does not survive a restart. The waits concerned are listed below, and also the button-release waits (`main/main.c:145-148`, `168-171`), which never acknowledge the watchdog.
- WifiManager.Connect: a `NoConnection` attempt stands for `wifi_quick_connect` returning `ESP_FAIL`. In the code that return is never reached: its wait (`main/wifi_manager.c:137-141`) polls up to 100000 × 100 ms without acknowledging the watchdog, so a non-connecting attempt ends in a watchdog reset. The model's exhaustion outcome therefore depends on the watchdog never firing.
- Controller.HandleMeasurements: the Wi-Fi exhaustion branch (`main/main.c:102-111`) is modelled as written, although in the code the watchdog reset described for `WifiManager.Connect` pre-empts it. LifeCycle.WifiExhaustionTakesShortSleep rests on the same assumption.
- Sensor.MeasureAndSend: `timeSynced = false` stands for `initialize_sntp` returning false. Its failing wait (`main/wifi_manager.c:216-222`) takes 15 × 2 s = 30 s without a watchdog reset, so in the code a failed sync ends in a watchdog reset. The reset comes after `measure_and_send` has stamped the window and raised `measurement_count` (`main/sensor.c:86-92`). Those writes are lost with the rest of RTC memory, and the next boot starts from the power-on store. The model instead lets the call return with the raised count and no stale-window check (`main/sensor.c:107-111`).
- LifeCycle.SleepsKeepQuota: a boot that does not follow a restart is allowed after any awake run, although in the code only a deep-sleep wake-up keeps RTC memory. This over-approximates and does not narrow the result.
- Hardware set-up (`main/main.c:17-52`): ADC and GPIO initialisation, and NVS initialisation. The NVS partition erase in `init_nvs` (`main/main.c:30-33`) is modelled only as its effect: a boot whose `nvsErased` input is set finds no backup blob.
- Aborts from `ESP_ERROR_CHECK`, including on calibration's ADC reads and on the Wi-Fi calls: these restart the process. The model's `Sensor.Calibrate` receives only the values of successful reads.
- Network plumbing in `main/wifi_manager.c`: station bring-up, the connect wait, SNTP polling, and report formatting and sending. They appear only as outcomes: an `Attempt` per connection try, `timeSynced`, and `Delivery`.
- Event races: the Wi-Fi event handler clearing `wifi_connected` between the retry loop and the measurement is not modelled.
- Temperature conversion (`main/sensor.c:77-81`): its value only feeds the report. Calibration's float formula (`main/sensor.c:23-28`) is the parameter `resistorOf`.
- Floats are `real`, so NaN and infinities are absent. In C a NaN resistor passes the `<= 0` range check.
- CRC-32 internals: the CRC is an arbitrary function. Single-bit-flip detection cannot be stated at this abstraction.
- Sensor.Calibrate: calibration's `int32_t` sum is added without wrap-around. Only readings far outside the 12-bit range could overflow it.
- RtcStore.Backup: a successful `nvs_set_blob` whose `nvs_commit` fails is treated as written.
- RtcStore.Restore: a stored blob larger than the read buffer (`ESP_ERR_NVS_INVALID_LENGTH`) is not distinguished; it is one of the failed reads that `transferOk = false` stands for.
- The meaning of `esp_timer_get_time` across boots: timestamps are inputs.
- The earlier variants `main/oneshot_read_main.c`, `adc/oneshot_read_main.c` and `main/test_sender.c`: these are standalone demos.

=== FILE: config.dfy ===
/**
 * Constants of main/config.h and the fixed-width integer types of the C code.
 * Dafny integers are unbounded, so every C width the model relies on is a
 * subset type here, and every increment or subtraction that can leave its
 * range is written out as the wrap-around the target performs.
 */
module Config {

  // System configuration (main/config.h)
  const REQUIRED_MEASUREMENTS: int := 10
  const MEASUREMENT_WINDOW_SEC: int := 300
  const DEEP_SLEEP_TIME_SEC: int := 30

  // ADC configuration (main/config.h)
  const ADC_SAMPLES: int := 5
  const ADC_MAX_VALUE: int := 4095

  // Default series resistor in ohms, the factory calibration (main/config.h)
  const SERIES_RESISTOR: real := 15000.0

  // Local constant `max_wifi_retries` of handle_measurements (main/main.c)
  const MAX_WIFI_RETRIES: int := 3

  const US_PER_SEC: int := 1000000

  const INT32_MIN: int := -0x8000_0000
  const INT32_MAX: int := 0x7fff_ffff

  /** C `int` on the target. */
  type Int32 = x: int | -0x8000_0000 <= x < 0x8000_0000

  /** C `uint32_t`. */
  type Uint32 = x: int | 0 <= x < 0x1_0000_0000

  /** C `uint64_t`. */
  type Uint64 = x: int | 0 <= x < 0x1_0000_0000_0000_0000

  /** A value of esp_timer_get_time(): a non-negative `int64_t` of microseconds. */
  type Timestamp = x: int | 0 <= x < 0x8000_0000_0000_0000

  /** `x++` on a C `int`, wrapping in two's complement as the target does. */
  function Int32Inc(x: Int32): (r: Int32)
    ensures x < INT32_MAX ==> r == x + 1
    ensures x == INT32_MAX ==> r == INT32_MIN
  {
    if x == INT32_MAX then INT32_MIN else x + 1
  }

  /** `x++` on a `uint32_t` (well-defined modular arithmetic). */
  function Uint32Inc(x: Uint32): (r: Uint32)
    ensures x < 0xffff_ffff ==> r == x + 1
    ensures x == 0xffff_ffff ==> r == 0
  {
    (x + 1) % 0x1_0000_0000
  }

  /** `a - b` evaluated in `uint64_t`: modulo 2^64. */
  function Uint64Sub(a: Uint64, b: Uint64): (r: Uint64)
    ensures b <= a ==> r == a - b
    ensures a < b ==> r == a - b + 0x1_0000_0000_0000_0000
  {
    (a - b) % 0x1_0000_0000_0000_0000
  }

  /** Result codes (`esp_err_t`) the core produces or passes through. */
  datatype EspErr =
    | EspOk
    | EspFail
    | ErrInvalidArg
    | ErrInvalidResponse
    | ErrTimeout
    | ErrWifiNotConnect
    | ErrOther(code: int)

  /** An `esp_err_t` other than ESP_OK. */
  type ErrCode = e: EspErr | !e.EspOk? witness EspFail
}

=== FILE: controller.dfy ===
/**
 * The cycle controller of main/main.c: the boot sequence of app_main, the
 * IDLE / MEASURING / SLEEPING loop, and handle_measurements. Button levels,
 * Wi-Fi outcomes, ADC readings, timestamps and NVS outcomes are inputs; the
 * non-returning esp_deep_sleep ends a run with the store it leaves behind.
 */
module Controller {
  import opened Config
  import opened RtcStore
  import opened PowerManager
  import opened Sensor
  import opened WifiManager

  /** system_state_t */
  datatype State = Idle | Measuring | Sleeping

  /** The loop's locals plus everything that outlives the process. */
  datatype Machine = Machine(state: State, startMeasurements: bool, retained: Retained, nvs: Nvs)

  /** An active-low button read before and after the debounce delay. */
  datatype Button = Button(pressedFirst: bool, pressedAfterDebounce: bool)

  predicate Debounced(b: Button)
  {
    b.pressedFirst && b.pressedAfterDebounce
  }

  /** What one handle_measurements call observes. */
  datatype CycleEnv = CycleEnv(attempts: seq<Attempt>, station: WifiConfig, measure: MeasureEnv)

  /** The environment supplies an outcome for every call the code can make. */
  predicate CycleEnvComplete(env: CycleEnv)
  {
    |env.attempts| >= MAX_WIFI_RETRIES && |env.measure.readings| == ADC_SAMPLES
  }

  /** What one iteration of the app_main loop observes. */
  datatype Input = Input(calibrateButton: Button, startButton: Button,
                         calibration: CalibrationEnv, cycle: CycleEnv)

  predicate InputComplete(i: Input)
  {
    |i.calibration.raws| == CALIBRATION_SAMPLES && CycleEnvComplete(i.cycle)
  }

  /** handle_measurements either sleeps itself (on success) or returns to the loop. */
  datatype MeasuringOutcome = SleptAfterSuccess(sleep: Sleep) | ReturnedToLoop(store: Store)

  /**
   * handle_measurements: bounded connection attempts, then a measurement.
   * Success sleeps at once; a failed measurement resets the window; running
   * out of attempts zeroes boot_count so the next boot re-initialises Wi-Fi.
   */
  function HandleMeasurements(crc: CrcFn, s: Store, env: CycleEnv): (o: MeasuringOutcome)
    requires CycleEnvComplete(env)
    ensures var c := Connect(s, env.attempts, env.station);
            !c.connected ==>
              && o.ReturnedToLoop?
              && o.store.data.bootCount == 0
              && o.store.data.measurementCount == s.data.measurementCount
              && o.store.data.firstMeasurementTime == s.data.firstMeasurementTime
              && o.store.data.calibratedResistor == s.data.calibratedResistor
              && o.store.data.wifiConfig == s.data.wifiConfig
              && Consistent(crc, o.store)
    ensures var c := Connect(s, env.attempts, env.station);
            var m := MeasureAndSend(c.store, env.measure);
            c.connected && m.status == EspOk ==>
              o == SleptAfterSuccess(EnterDeepSleep(crc, m.store))
    ensures var c := Connect(s, env.attempts, env.station);
            var m := MeasureAndSend(c.store, env.measure);
            c.connected && m.status != EspOk ==>
              && o.ReturnedToLoop?
              && o.store.data.measurementCount == 0
              && o.store.data.firstMeasurementTime == 0
              && o.store.data.bootCount == c.store.data.bootCount
              && o.store.data.calibratedResistor == s.data.calibratedResistor
              && o.store.data.wifiConfig == c.store.data.wifiConfig
              && Consistent(crc, o.store)
  {
    var c := Connect(s, env.attempts, env.station);
    if c.connected then
      var m := MeasureAndSend(c.store, env.measure);
      if m.status == EspOk then
        SleptAfterSuccess(EnterDeepSleep(crc, m.store))
      else
        var d := m.store.data;
        ReturnedToLoop(Update(crc, m.store, d.bootCount, 0, 0, d.calibratedResistor))
    else
      var d := c.store.data;
      ReturnedToLoop(Update(crc, c.store, 0, d.measurementCount, d.firstMeasurementTime,
                            d.calibratedResistor))
  }

  /**
   * Boot: init_rtc_data, then is_fresh_start. A timer wake-up goes straight to
   * MEASURING with start_measurements set; anything else starts IDLE with
   * boot_count zeroed behind the CRC's back.
   */
  function Boot(crc: CrcFn, r: Retained, nvs: Nvs, cause: WakeupCause, restore: NvsAccess): (m: Machine)
    ensures m.nvs == nvs
    ensures cause == Timer ==>
              m == Machine(Measuring, true, Retained(Init(crc, r.store, nvs, restore), r.resetCount), nvs)
    ensures cause != Timer ==>
              && m.state == Idle
              && !m.startMeasurements
              && m.retained.store.data == Init(crc, r.store, nvs, restore).data.(bootCount := 0)
              && m.retained.store.crc == Init(crc, r.store, nvs, restore).crc
              && m.retained.resetCount == Uint32Inc(r.resetCount)
    ensures m.state == Measuring ==> m.startMeasurements
  {
    var initialised := Retained(Init(crc, r.store, nvs, restore), r.resetCount);
    var f := IsFreshStart(initialised, cause);
    if f.isFresh then Machine(Idle, false, f.retained, nvs)
    else Machine(Measuring, true, f.retained, nvs)
  }

  /**
   * The STATE_IDLE case: a debounced calibrate press calibrates (state stays
   * IDLE); then a debounced start press resets the window and moves to
   * MEASURING. Both can happen in the same iteration, in that order.
   */
  function IdleStep(crc: CrcFn, m: Machine, input: Input, resistorOf: real -> real): (m': Machine)
    requires m.state == Idle
    requires InputComplete(input)
    ensures m'.retained.resetCount == m.retained.resetCount
    ensures m'.retained.store.data.wifiConfig == m.retained.store.data.wifiConfig
    ensures !Debounced(input.startButton) ==> m'.state == Idle && m'.startMeasurements == m.startMeasurements
    ensures Debounced(input.startButton) ==>
              && m'.state == Measuring
              && m'.startMeasurements
              && m'.retained.store.data.measurementCount == 0
              && m'.retained.store.data.firstMeasurementTime == 0
              && m'.retained.store.data.bootCount == m.retained.store.data.bootCount
              && Consistent(crc, m'.retained.store)
    ensures !Debounced(input.calibrateButton) && !Debounced(input.startButton) ==> m' == m
    ensures var c := Calibrate(crc, m.retained.store, m.nvs, input.calibration, resistorOf);
            Debounced(input.calibrateButton) && !Debounced(input.startButton) ==>
              m' == m.(retained := m.retained.(store := c.store), nvs := c.nvs)
    ensures var c := Calibrate(crc, m.retained.store, m.nvs, input.calibration, resistorOf);
            Debounced(input.calibrateButton) && Debounced(input.startButton) ==>
              && m'.nvs == c.nvs
              && m'.retained.store.data.calibratedResistor == c.store.data.calibratedResistor
    ensures !Debounced(input.calibrateButton) ==>
              && m'.nvs == m.nvs
              && m'.retained.store.data.calibratedResistor == m.retained.store.data.calibratedResistor
  {
    var calibrated :=
      if Debounced(input.calibrateButton) then
        var c := Calibrate(crc, m.retained.store, m.nvs, input.calibration, resistorOf);
        m.(retained := m.retained.(store := c.store), nvs := c.nvs)
      else m;
    if Debounced(input.startButton) then
      var d := calibrated.retained.store.data;
      var reset := Update(crc, calibrated.retained.store, d.bootCount, 0, 0, d.calibratedResistor);
      calibrated.(state := Measuring, startMeasurements := true,
                  retained := calibrated.retained.(store := reset))
    else calibrated
  }

  /** One iteration either keeps the loop running or ends the process in deep sleep. */
  datatype StepResult = Running(machine: Machine) | Suspended(sleep: Sleep, resetCount: Uint32, nvs: Nvs)

  /** One iteration of the app_main loop. */
  function Step(crc: CrcFn, m: Machine, input: Input, resistorOf: real -> real): (r: StepResult)
    requires InputComplete(input)
    ensures m.state == Idle ==> r == Running(IdleStep(crc, m, input, resistorOf))
    ensures m.state == Measuring && !m.startMeasurements ==> r == Running(m)
    ensures m.state == Measuring && m.startMeasurements ==>
              match HandleMeasurements(crc, m.retained.store, input.cycle)
              case SleptAfterSuccess(z) => r == Suspended(z, m.retained.resetCount, m.nvs)
              case ReturnedToLoop(s) =>
                r == Running(Machine(Sleeping, true, m.retained.(store := s), m.nvs))
    ensures m.state == Sleeping ==>
              r == Suspended(EnterDeepSleep(crc, m.retained.store), m.retained.resetCount, m.nvs)
    ensures r.Suspended? ==> Consistent(crc, r.sleep.store)
    ensures (m.state == Measuring ==> m.startMeasurements) && r.Running? ==>
              (r.machine.state == Measuring ==> r.machine.startMeasurements)
  {
    match m.state
    case Idle => Running(IdleStep(crc, m, input, resistorOf))
    case Measuring =>
      if !m.startMeasurements then Running(m)
      else
        (match HandleMeasurements(crc, m.retained.store, input.cycle)
         case SleptAfterSuccess(z) => Suspended(z, m.retained.resetCount, m.nvs)
         case ReturnedToLoop(s) => Running(Machine(Sleeping, true, m.retained.(store := s), m.nvs)))
    case Sleeping =>
      Suspended(EnterDeepSleep(crc, m.retained.store), m.retained.resetCount, m.nvs)
  }

  /** A run of one boot: it ends in deep sleep, or is still awake when the inputs end. */
  datatype RunResult = Slept(sleep: Sleep, retained: Retained, nvs: Nvs) | Awake(machine: Machine)

  /**
   * The `while (1)` loop of app_main over the iterations the inputs describe.
   * A sleep ends the run and hands RTC memory, as it sleeps, to the next boot.
   */
  function Run(crc: CrcFn, m: Machine, inputs: seq<Input>, resistorOf: real -> real): (r: RunResult)
    requires forall k :: 0 <= k < |inputs| ==> InputComplete(inputs[k])
    ensures |inputs| == 0 ==> r == Awake(m)
    ensures r.Slept? ==> r.retained.store == r.sleep.store && Consistent(crc, r.sleep.store)
    ensures r.Slept? ==> r.retained.resetCount == m.retained.resetCount
    ensures m.state == Sleeping && |inputs| > 0 ==>
              r == Slept(EnterDeepSleep(crc, m.retained.store),
                         Retained(EnterDeepSleep(crc, m.retained.store).store, m.retained.resetCount),
                         m.nvs)
    ensures (m.state == Measuring ==> m.startMeasurements) && r.Awake? ==>
              (r.machine.state == Measuring ==> r.machine.startMeasurements)
    decreases |inputs|
  {
    if |inputs| == 0 then Awake(m)
    else match Step(crc, m, inputs[0], resistorOf)
      case Suspended(z, resetCount, nvs) => Slept(z, Retained(z.store, resetCount), nvs)
      case Running(next) => Run(crc, next, inputs[1..], resistorOf)
  }

  /**
   * Every path through MEASURING ends in deep sleep within two iterations:
   * directly after a successful measurement, otherwise through SLEEPING.
   */
  lemma MeasuringEndsInSleep(crc: CrcFn, m: Machine, first: Input, second: Input,
                             resistorOf: real -> real)
    requires m.state == Measuring && m.startMeasurements
    requires InputComplete(first) && InputComplete(second)
    ensures match Step(crc, m, first, resistorOf)
            case Suspended(_, _, _) => true
            case Running(next) =>
              next.state == Sleeping && Step(crc, next, second, resistorOf).Suspended?
  {
  }
}

=== FILE: lifecycle.dfy ===
/**
 * The multi-boot life cycle: a sequence of boots, each running the controller
 * until it sleeps or restarts, with RTC memory (after a restart, only NVS)
 * carried over to the next boot. The measurement quota is an invariant of it.
 */
module LifeCycle {
  import opened Config
  import opened Wrappers
  import opened RtcStore
  import opened PowerManager
  import opened Sensor
  import opened WifiManager
  import opened Controller

  /** The quota bound of is_rtc_data_valid, on a store. */
  predicate WithinQuota(d: Data)
  {
    0 <= d.measurementCount <= REQUIRED_MEASUREMENTS
  }

  /** The quota bound on the NVS blob, when there is one. */
  predicate NvsWithinQuota(nvs: Nvs)
  {
    nvs.Some? ==> WithinQuota(nvs.value)
  }

  /** What every loop iteration keeps. */
  predicate Healthy(m: Machine)
  {
    && WithinQuota(m.retained.store.data)
    && NvsWithinQuota(m.nvs)
    && (m.state == Measuring ==> m.startMeasurements)
  }

  /** What every deep sleep leaves behind: a window strictly below the quota, under a matching CRC. */
  predicate SleepsWell(crc: CrcFn, z: Sleep)
  {
    0 <= z.store.data.measurementCount < REQUIRED_MEASUREMENTS && Consistent(crc, z.store)
  }

  /** Any boot starts healthy as long as the NVS blob respects the quota. */
  lemma BootIsHealthy(crc: CrcFn, r: Retained, nvs: Nvs, cause: WakeupCause, restore: NvsAccess)
    requires NvsWithinQuota(nvs)
    ensures Healthy(Boot(crc, r, nvs, cause, restore))
  {
  }

  /** One loop iteration keeps the machine healthy, or sleeps well. */
  lemma StepKeepsHealthy(crc: CrcFn, m: Machine, input: Input, resistorOf: real -> real)
    requires Healthy(m)
    requires InputComplete(input)
    ensures match Step(crc, m, input, resistorOf)
            case Running(next) => Healthy(next)
            case Suspended(z, _, nvs) => SleepsWell(crc, z) && NvsWithinQuota(nvs)
  {
  }

  /** A whole boot keeps the machine healthy, or sleeps well. */
  lemma {:induction false} RunKeepsHealthy(crc: CrcFn, m: Machine, inputs: seq<Input>,
                                           resistorOf: real -> real)
    requires Healthy(m)
    requires forall k :: 0 <= k < |inputs| ==> InputComplete(inputs[k])
    ensures match Run(crc, m, inputs, resistorOf)
            case Awake(last) => Healthy(last)
            case Slept(z, r, nvs) => SleepsWell(crc, z) && r.store == z.store && NvsWithinQuota(nvs)
    decreases |inputs|
  {
    if |inputs| > 0 {
      StepKeepsHealthy(crc, m, inputs[0], resistorOf);
      match Step(crc, m, inputs[0], resistorOf)
      case Suspended(_, _, _) =>
      case Running(next) =>
        RunKeepsHealthy(crc, next, inputs[1..], resistorOf);
    }
  }

  /**
   * One boot: whether it follows a restart rather than a deep-sleep wake-up,
   * whether init_nvs erased the partition (main.c:30-33), its wake-up cause,
   * its NVS read and its loop inputs.
   */
  datatype BootInput = BootInput(restarted: bool, nvsErased: bool, cause: WakeupCause,
                                 restore: NvsAccess, inputs: seq<Input>)

  predicate BootInputComplete(b: BootInput)
  {
    forall k :: 0 <= k < |b.inputs| ==> InputComplete(b.inputs[k])
  }

  /**
   * RTC memory at the start of a boot. `RTC_DATA_ATTR` data keeps its value
   * only across a deep-sleep wake-up; any other reset (power-on, a watchdog
   * panic, an abort) reloads the static initialisers of rtc_store.c:7-14 and
   * power_manager.c:8.
   */
  function BootRetained(r: Retained, b: BootInput): Retained
  {
    if b.restarted then Retained(PowerOnStore, 0) else r
  }

  /** The NVS partition a boot sees: erased and reinitialised by init_nvs, or as the last boot left it. */
  function BootNvs(nvs: Nvs, b: BootInput): Nvs
  {
    if b.nvsErased then None else nvs
  }

  function BootCause(b: BootInput): WakeupCause
  {
    if b.restarted then Undefined else b.cause
  }

  /**
   * The deep sleeps of consecutive boots. A boot still awake after its last
   * input is cut off by a restart. A restart inside an iteration is covered
   * too: RTC memory does not survive it, and the iteration's only NVS write,
   * calibration's backup, either happened or did not. The next boot should
   * then be `restarted`; one that is not is an over-approximation.
   */
  function Sleeps(crc: CrcFn, r: Retained, nvs: Nvs, boots: seq<BootInput>,
                  resistorOf: real -> real): seq<Sleep>
    requires forall k :: 0 <= k < |boots| ==> BootInputComplete(boots[k])
    decreases |boots|
  {
    if |boots| == 0 then []
    else
      var b := boots[0];
      assert BootInputComplete(b);
      var m := Boot(crc, BootRetained(r, b), BootNvs(nvs, b), BootCause(b), b.restore);
      match Run(crc, m, b.inputs, resistorOf)
      case Awake(last) => Sleeps(crc, last.retained, last.nvs, boots[1..], resistorOf)
      case Slept(z, next, nvsAfter) => [z] + Sleeps(crc, next, nvsAfter, boots[1..], resistorOf)
  }

  /**
   * Over any number of boots, restarts and NVS erasures included, every deep sleep leaves
   * a measurement count strictly below REQUIRED_MEASUREMENTS under a matching
   * CRC, provided the NVS blob started within the quota (an empty NVS does).
   */
  lemma {:induction false} SleepsKeepQuota(crc: CrcFn, r: Retained, nvs: Nvs,
                                           boots: seq<BootInput>, resistorOf: real -> real)
    requires NvsWithinQuota(nvs)
    requires forall k :: 0 <= k < |boots| ==> BootInputComplete(boots[k])
    ensures forall k :: 0 <= k < |Sleeps(crc, r, nvs, boots, resistorOf)| ==>
              SleepsWell(crc, Sleeps(crc, r, nvs, boots, resistorOf)[k])
    decreases |boots|
  {
    if |boots| > 0 {
      var b := boots[0];
      assert BootInputComplete(b);
      var m := Boot(crc, BootRetained(r, b), BootNvs(nvs, b), BootCause(b), b.restore);
      BootIsHealthy(crc, BootRetained(r, b), BootNvs(nvs, b), BootCause(b), b.restore);
      RunKeepsHealthy(crc, m, b.inputs, resistorOf);
      match Run(crc, m, b.inputs, resistorOf)
      case Awake(last) =>
        SleepsKeepQuota(crc, last.retained, last.nvs, boots[1..], resistorOf);
      case Slept(z, next, nvsAfter) =>
        SleepsKeepQuota(crc, next, nvsAfter, boots[1..], resistorOf);
    }
  }

  /**
   * After any restart esp_reset_count is reloaded as 0 and is_fresh_start
   * counts the restart, so the count reads exactly 1 and the node waits in IDLE.
   */
  lemma RestartCountsOneReset(crc: CrcFn, r: Retained, nvs: Nvs, b: BootInput)
    requires b.restarted
    ensures var m := Boot(crc, BootRetained(r, b), BootNvs(nvs, b), BootCause(b), b.restore);
            m.retained.resetCount == 1 && m.state == Idle
  {
  }

  /**
   * Resumption is reconstructed from RTC memory alone: after a deep sleep of
   * an in-range store, a timer wake-up re-enters MEASURING with exactly the
   * store that went to sleep.
   */
  lemma TimerWakeResumesSleptStore(crc: CrcFn, s: Store, resetCount: Uint32, nvs: Nvs,
                                   restore: NvsAccess)
    requires s.data.bootCount >= 0 && s.data.calibratedResistor > 0.0
    requires s.data.measurementCount >= 0
    ensures var z := EnterDeepSleep(crc, s);
            Boot(crc, Retained(z.store, resetCount), nvs, Timer, restore) ==
              Machine(Measuring, true, Retained(z.store, resetCount), nvs)
  {
  }

  /**
   * The measurement that completes the quota takes the long window sleep with
   * the window reset, unless time sync succeeded and the window had already
   * expired (then the window is abandoned and the short sleep taken).
   */
  lemma QuotaCompletionTakesWindowSleep(crc: CrcFn, m: Machine, input: Input,
                                        resistorOf: real -> real)
    requires InputComplete(input)
    requires m.state == Measuring && m.startMeasurements
    requires m.retained.store.data.measurementCount == REQUIRED_MEASUREMENTS - 1
    requires !input.cycle.attempts[0].NoConnection?
    requires input.cycle.measure.adcReady && SampleOf(input.cycle.measure.readings).Average?
    requires input.cycle.measure.timeSynced ==> DeliveryStatus(input.cycle.measure.delivery) == EspOk
    ensures var expired := input.cycle.measure.timeSynced
                           && ElapsedSec(input.cycle.measure.nowTime,
                                         m.retained.store.data.firstMeasurementTime)
                              >= MEASUREMENT_WINDOW_SEC;
            var r := Step(crc, m, input, resistorOf);
            && r.Suspended?
            && r.sleep.store.data.measurementCount == 0
            && r.sleep.store.data.firstMeasurementTime == 0
            && (r.sleep.durationUs == WINDOW_SLEEP_US <==> !expired)
  {
  }

  /**
   * Exhausting the Wi-Fi attempts zeroes boot_count and, one iteration later,
   * takes the short sleep (the window had not reached its quota).
   */
  lemma WifiExhaustionTakesShortSleep(crc: CrcFn, m: Machine, first: Input, second: Input,
                                      resistorOf: real -> real)
    requires InputComplete(first) && InputComplete(second)
    requires m.state == Measuring && m.startMeasurements
    requires m.retained.store.data.measurementCount < REQUIRED_MEASUREMENTS
    requires forall k :: 0 <= k < MAX_WIFI_RETRIES ==> first.cycle.attempts[k].NoConnection?
    ensures Step(crc, m, first, resistorOf).Running?
    ensures var next := Step(crc, m, first, resistorOf).machine;
            && next.state == Sleeping
            && next.retained.store.data.bootCount == 0
            && Step(crc, next, second, resistorOf).Suspended?
            && Step(crc, next, second, resistorOf).sleep.durationUs == SHORT_SLEEP_US
            && Step(crc, next, second, resistorOf).sleep.store.data.bootCount == 0
  {
  }
}

=== FILE: power_manager.dfy ===
/**
 * Boot-cause classification and the deep-sleep window decision
 * (main/power_manager.c).
 */
module PowerManager {
  import opened Config
  import opened RtcStore

  /** esp_sleep_wakeup_cause_t; `Undefined` is what a reset (not a wake-up) reports. */
  datatype WakeupCause = Undefined | Timer | Ext0 | Ext1 | Touchpad | Ulp | Gpio | Uart

  /** Everything in RTC memory: the store and the separate `esp_reset_count`. */
  datatype Retained = Retained(store: Store, resetCount: Uint32)

  /** Result of is_fresh_start: the returned flag and the retained state afterwards. */
  datatype Freshness = Freshness(isFresh: bool, retained: Retained)

  /**
   * is_fresh_start: any cause but the timer is a fresh start, which zeroes
   * boot_count directly (the CRC is left stale) and counts the reset.
   */
  function IsFreshStart(r: Retained, cause: WakeupCause): (f: Freshness)
    ensures f.isFresh <==> cause != Timer
    ensures !f.isFresh ==> f.retained == r
    ensures f.isFresh ==> f.retained.store.data.bootCount == 0
    ensures f.isFresh ==> f.retained.resetCount == Uint32Inc(r.resetCount)
    ensures f.retained.store.crc == r.store.crc
    ensures f.retained.store.data.measurementCount == r.store.data.measurementCount
    ensures f.retained.store.data.firstMeasurementTime == r.store.data.firstMeasurementTime
    ensures f.retained.store.data.calibratedResistor == r.store.data.calibratedResistor
    ensures f.retained.store.data.wifiConfig == r.store.data.wifiConfig
  {
    if cause != Timer then
      var s := r.store.(data := r.store.data.(bootCount := 0));
      Freshness(true, Retained(s, Uint32Inc(r.resetCount)))
    else
      Freshness(false, r)
  }

  /** Long sleep after a completed window: MEASUREMENT_WINDOW_SEC in microseconds. */
  const WINDOW_SLEEP_US: nat := MEASUREMENT_WINDOW_SEC * US_PER_SEC

  /** Short sleep between measurements: DEEP_SLEEP_TIME_SEC in microseconds. */
  const SHORT_SLEEP_US: nat := DEEP_SLEEP_TIME_SEC * US_PER_SEC

  /** The non-returning esp_deep_sleep call: the store it leaves behind and the duration. */
  datatype Sleep = DeepSleep(store: Store, durationUs: nat)

  /**
   * enter_deep_sleep: a completed quota resets the window and takes the long
   * sleep; otherwise the counters are kept and the short sleep is taken. Both
   * branches go through update_rtc_data, so the store sleeps with a CRC that
   * matches.
   */
  function EnterDeepSleep(crc: CrcFn, s: Store): (z: Sleep)
    ensures s.data.measurementCount >= REQUIRED_MEASUREMENTS ==>
              && z.store.data.measurementCount == 0
              && z.store.data.firstMeasurementTime == 0
              && z.durationUs == WINDOW_SLEEP_US
    ensures s.data.measurementCount < REQUIRED_MEASUREMENTS ==>
              && z.store.data.measurementCount == s.data.measurementCount
              && z.store.data.firstMeasurementTime == s.data.firstMeasurementTime
              && z.durationUs == SHORT_SLEEP_US
    ensures z.store.data.bootCount == s.data.bootCount
    ensures z.store.data.calibratedResistor == s.data.calibratedResistor
    ensures z.store.data.wifiConfig == s.data.wifiConfig
    ensures Consistent(crc, z.store)
    ensures s.data.measurementCount >= 0 ==>
              0 <= z.store.data.measurementCount < REQUIRED_MEASUREMENTS
  {
    var d := s.data;
    if d.measurementCount >= REQUIRED_MEASUREMENTS then
      DeepSleep(Update(crc, s, d.bootCount, 0, 0, d.calibratedResistor), WINDOW_SLEEP_US)
    else
      DeepSleep(Update(crc, s, d.bootCount, d.measurementCount, d.firstMeasurementTime,
                       d.calibratedResistor), SHORT_SLEEP_US)
  }

  /**
   * A store that sleeps in range is kept as it is by the next boot's
   * validation: the timer wake-up resumes exactly where the last boot stopped.
   */
  lemma SleptStoreSurvivesInit(crc: CrcFn, s: Store, nvs: Nvs, access: NvsAccess)
    requires s.data.bootCount >= 0 && s.data.calibratedResistor > 0.0
    requires s.data.measurementCount >= 0
    ensures Init(crc, EnterDeepSleep(crc, s).store, nvs, access) == EnterDeepSleep(crc, s).store
  {
  }
}

=== FILE: rtc_store.dfy ===
/**
 * The retained state store (main/rtc_store.c): a record kept in RTC memory
 * across deep sleep, guarded by a CRC-32 and by range checks, with a backup
 * of its data part in an NVS blob.
 *
 * The CRC (esp_crc32_le over the data bytes) is a foreign call. It is a
 * parameter `crc` of every operation, so each contract holds for every
 * checksum function whatsoever.
 */
module RtcStore {
  import opened Config
  import opened Wrappers

  /** The station configuration (`wifi_config_t`), opaque to the store. */
  datatype WifiConfig = WifiConfig(ssid: string, password: string)

  /** The checksummed part of `rtc_store_t`. */
  datatype Data = Data(
    bootCount: Int32,
    measurementCount: Int32,
    firstMeasurementTime: Uint64,
    calibratedResistor: real,
    wifiConfig: WifiConfig)

  /** `rtc_store_t`: a checksum and the data it is meant to cover. */
  datatype Store = Store(crc: Uint32, data: Data)

  /** A checksum over the data bytes. */
  type CrcFn = Data -> Uint32

  /** The NVS key "rtc_data": empty until the first successful backup. */
  type Nvs = Option<Data>

  /** Outcome of the NVS calls one backup or restore makes. */
  datatype NvsAccess = NvsAccess(openOk: bool, transferOk: bool)

  /** The zero-initialised station configuration of a power-on image. */
  const EmptyWifiConfig := WifiConfig("", "")

  /** Defaults written when neither RTC memory nor NVS can be trusted. */
  const DefaultData := Data(0, 0, 0, SERIES_RESISTOR, EmptyWifiConfig)

  /** The static initialiser of `rtc_store`: what RTC memory holds after any restart other than a deep-sleep wake-up. */
  const PowerOnStore := Store(0, DefaultData)

  /** The range half of validation. */
  predicate InRange(d: Data)
  {
    && d.bootCount >= 0
    && 0 <= d.measurementCount <= REQUIRED_MEASUREMENTS
    && d.calibratedResistor > 0.0
  }

  /** The checksum half of validation: the stored CRC covers the current data. */
  predicate Consistent(crc: CrcFn, s: Store)
  {
    s.crc == crc(s.data)
  }

  /** is_rtc_data_valid: the range checks first, then the CRC comparison. */
  function IsValid(crc: CrcFn, s: Store): (ok: bool)
    ensures ok <==> InRange(s.data) && Consistent(crc, s)
  {
    if s.data.bootCount < 0 || s.data.measurementCount < 0
       || s.data.measurementCount > REQUIRED_MEASUREMENTS
       || s.data.calibratedResistor <= 0.0
    then false
    else crc(s.data) == s.crc
  }

  /**
   * update_rtc_data: writes the four counters and the resistor, then the CRC
   * of the new data, in one step. It does not check the ranges, so whether
   * the result validates depends on the arguments alone.
   */
  function Update(crc: CrcFn, s: Store, bootCount: Int32, measurementCount: Int32,
                  firstMeasurementTime: Uint64, calibratedResistor: real): (r: Store)
    ensures r.data.bootCount == bootCount
    ensures r.data.measurementCount == measurementCount
    ensures r.data.firstMeasurementTime == firstMeasurementTime
    ensures r.data.calibratedResistor == calibratedResistor
    ensures r.data.wifiConfig == s.data.wifiConfig
    ensures Consistent(crc, r)
    ensures IsValid(crc, r) <==>
              && bootCount >= 0
              && 0 <= measurementCount <= REQUIRED_MEASUREMENTS
              && calibratedResistor > 0.0
  {
    var d := s.data.(bootCount := bootCount,
                     measurementCount := measurementCount,
                     firstMeasurementTime := firstMeasurementTime,
                     calibratedResistor := calibratedResistor);
    Store(crc(d), d)
  }

  /**
   * backup_to_nvs: stores the whole data blob (station configuration
   * included) when the namespace opens and the blob is written; otherwise the
   * slot keeps its old value. The in-memory store is an input only.
   */
  function Backup(s: Store, nvs: Nvs, access: NvsAccess): (r: Nvs)
    ensures access.openOk && access.transferOk ==> r == Some(s.data)
    ensures !(access.openOk && access.transferOk) ==> r == nvs
  {
    if !access.openOk then nvs
    else if !access.transferOk then nvs
    else Some(s.data)
  }

  /** Result of restore_from_nvs: the returned flag and the store afterwards. */
  datatype Restored = Restored(ok: bool, store: Store)

  /**
   * restore_from_nvs: on success the blob replaces the data and the CRC is
   * recomputed; the ranges are NOT re-checked. A failed open, an absent blob
   * or a failed read returns false and leaves the store as it was.
   */
  function Restore(crc: CrcFn, s: Store, nvs: Nvs, access: NvsAccess): (r: Restored)
    ensures r.ok <==> access.openOk && access.transferOk && nvs.Some?
    ensures !r.ok ==> r.store == s
    ensures r.ok ==> r.store.data == nvs.value && Consistent(crc, r.store)
    ensures r.ok ==> (IsValid(crc, r.store) <==> InRange(nvs.value))
  {
    if !access.openOk then Restored(false, s)
    else match nvs
      case None => Restored(false, s)
      case Some(blob) =>
        if !access.transferOk then Restored(false, s)
        else Restored(true, Store(crc(blob), blob))
  }

  /**
   * init_rtc_data: keep a valid store; otherwise restore from NVS; if that
   * fails, write the defaults (keeping whatever station configuration the
   * rejected store held). NVS is only read.
   */
  function Init(crc: CrcFn, s: Store, nvs: Nvs, access: NvsAccess): (r: Store)
    ensures IsValid(crc, s) ==> r == s
    ensures !IsValid(crc, s) && Restore(crc, s, nvs, access).ok ==>
              r == Store(crc(nvs.value), nvs.value)
    ensures !IsValid(crc, s) && !Restore(crc, s, nvs, access).ok ==>
              r.data == DefaultData.(wifiConfig := s.data.wifiConfig) && IsValid(crc, r)
    ensures Consistent(crc, r)
    ensures IsValid(crc, r) <==>
              IsValid(crc, s) || !Restore(crc, s, nvs, access).ok || InRange(nvs.value)
  {
    if IsValid(crc, s) then s
    else
      var restored := Restore(crc, s, nvs, access);
      if restored.ok then restored.store
      else Update(crc, s, 0, 0, 0, SERIES_RESISTOR)
  }

  /** Backing up and then restoring gives back the whole data blob, with a fresh CRC. */
  lemma BackupRestoreRoundTrip(crc: CrcFn, s: Store, t: Store, nvs: Nvs,
                               write: NvsAccess, read: NvsAccess)
    requires write.openOk && write.transferOk
    requires read.openOk && read.transferOk
    ensures Restore(crc, t, Backup(s, nvs, write), read) == Restored(true, Store(crc(s.data), s.data))
    ensures Restore(crc, t, Backup(s, nvs, write), read).store.data.wifiConfig == s.data.wifiConfig
  {
  }

  /**
   * The store after init is valid unless the restored blob itself is out of
   * range: a restore can carry a negative count or a non-positive resistor
   * into RTC memory under a correct CRC.
   */
  lemma InitValidUnlessBlobOutOfRange(crc: CrcFn, s: Store, nvs: Nvs, access: NvsAccess)
    ensures !IsValid(crc, Init(crc, s, nvs, access)) ==>
              && !IsValid(crc, s)
              && nvs.Some?
              && !InRange(nvs.value)
              && Init(crc, s, nvs, access).data == nvs.value
  {
  }

  /**
   * Cold boot with no NVS blob: whether or not the power-on image
   * happens to match its own CRC, init leaves the default data in RTC memory.
   */
  lemma PowerOnInitYieldsDefaults(crc: CrcFn, access: NvsAccess)
    ensures Init(crc, PowerOnStore, None, access).data == DefaultData
    ensures IsValid(crc, Init(crc, PowerOnStore, None, access))
  {
  }
}

=== FILE: sensor.dfy ===
/**
 * Sampling and measurement bookkeeping (main/sensor.c). The float
 * conversion from the raw average to a temperature only feeds the report and
 * is not modelled; calibration's float maths is a parameter `resistorOf`.
 */
module Sensor {
  import opened Config
  import opened Wrappers
  import opened RtcStore

  /** One adc_oneshot_read call: a raw value, or the error it returned. */
  datatype AdcRead = Sample(raw: Int32) | ReadError(code: ErrCode)

  predicate InAdcRange(raw: int)
  {
    0 <= raw <= ADC_MAX_VALUE
  }

  function Sum(xs: seq<int>): int
  {
    if |xs| == 0 then 0 else Sum(xs[..|xs| - 1]) + xs[|xs| - 1]
  }

  /** The first failed read, if any (defined from the back, like a loop prefix). */
  function FirstError(readings: seq<AdcRead>): (e: Option<ErrCode>)
    ensures e.None? <==> forall i :: 0 <= i < |readings| ==> readings[i].Sample?
  {
    if |readings| == 0 then None
    else
      var prefix := FirstError(readings[..|readings| - 1]);
      if prefix.Some? then prefix
      else match readings[|readings| - 1]
        case ReadError(code) => Some(code)
        case Sample(_) => None
  }

  /** Whether one read is a raw value the range filter accepts. */
  predicate IsAccepted(read: AdcRead)
  {
    read.Sample? && InAdcRange(read.raw)
  }

  /** Positions of the accepted reads: the reads real_number_of_samples counts. */
  function AcceptedPositions(readings: seq<AdcRead>): set<int>
  {
    set i | 0 <= i < |readings| && IsAccepted(readings[i])
  }

  /** Positions of the accepted reads whose raw value is `x`. */
  function AcceptedPositionsOf(readings: seq<AdcRead>, x: int): set<int>
  {
    set i | 0 <= i < |readings| && IsAccepted(readings[i]) && readings[i].raw == x
  }

  /** Appending one read adds its position to the accepted positions exactly when it is accepted. */
  lemma AcceptedPositionsStep(readings: seq<AdcRead>)
    requires |readings| > 0
    ensures var n := |readings| - 1;
            |AcceptedPositions(readings)| ==
              |AcceptedPositions(readings[..n])| + (if IsAccepted(readings[n]) then 1 else 0)
  {
    var n := |readings| - 1;
    var before := AcceptedPositions(readings[..n]);
    var added: set<int> := if IsAccepted(readings[n]) then {n} else {};
    forall i ensures i in AcceptedPositions(readings) <==> i in before + added {
      if 0 <= i < n {
        assert readings[..n][i] == readings[i];
      }
    }
    assert AcceptedPositions(readings) == before + added;
    assert n !in before;
  }

  /** The same step, for the accepted positions of one value. */
  lemma AcceptedPositionsOfStep(readings: seq<AdcRead>, x: int)
    requires |readings| > 0
    ensures var n := |readings| - 1;
            |AcceptedPositionsOf(readings, x)| ==
              |AcceptedPositionsOf(readings[..n], x)| +
              (if IsAccepted(readings[n]) && readings[n].raw == x then 1 else 0)
  {
    var n := |readings| - 1;
    var before := AcceptedPositionsOf(readings[..n], x);
    var added: set<int> := if IsAccepted(readings[n]) && readings[n].raw == x then {n} else {};
    forall i ensures i in AcceptedPositionsOf(readings, x) <==> i in before + added {
      if 0 <= i < n {
        assert readings[..n][i] == readings[i];
      }
    }
    assert AcceptedPositionsOf(readings, x) == before + added;
    assert n !in before;
  }

  /** The step for every value at once. */
  lemma AcceptedPositionsOfSteps(readings: seq<AdcRead>)
    requires |readings| > 0
    ensures var n := |readings| - 1;
            forall x :: |AcceptedPositionsOf(readings, x)| ==
              |AcceptedPositionsOf(readings[..n], x)| +
              (if IsAccepted(readings[n]) && readings[n].raw == x then 1 else 0)
  {
    forall x
      ensures |AcceptedPositionsOf(readings, x)| ==
                |AcceptedPositionsOf(readings[..|readings| - 1], x)| +
                (if IsAccepted(readings[|readings| - 1]) && readings[|readings| - 1].raw == x then 1 else 0)
    {
      AcceptedPositionsOfStep(readings, x);
    }
  }

  /** Extending the accepted readings of a prefix by the last read keeps the counts exact. */
  lemma AcceptedCountStep(readings: seq<AdcRead>, kept: seq<int>, added: seq<int>)
    requires |readings| > 0
    requires |kept| == |AcceptedPositions(readings[..|readings| - 1])|
    requires forall x :: multiset(kept)[x] == |AcceptedPositionsOf(readings[..|readings| - 1], x)|
    requires added == if IsAccepted(readings[|readings| - 1]) then [readings[|readings| - 1].raw] else []
    ensures |kept + added| == |AcceptedPositions(readings)|
    ensures forall x :: multiset(kept + added)[x] == |AcceptedPositionsOf(readings, x)|
  {
    AcceptedPositionsStep(readings);
    AcceptedPositionsOfSteps(readings);
    assert multiset(kept + added) == multiset(kept) + multiset(added);
  }

  /** Extending the accepted readings of a prefix by the last read keeps exactly the accepted values. */
  lemma AcceptedMembershipStep(readings: seq<AdcRead>, kept: seq<int>, added: seq<int>)
    requires |readings| > 0
    requires var p := readings[..|readings| - 1];
             forall i :: 0 <= i < |p| && IsAccepted(p[i]) ==> p[i].raw in kept
    requires var p := readings[..|readings| - 1];
             kept == [] <==> forall i :: 0 <= i < |p| ==> !IsAccepted(p[i])
    requires added == if IsAccepted(readings[|readings| - 1]) then [readings[|readings| - 1].raw] else []
    ensures forall i :: 0 <= i < |readings| && IsAccepted(readings[i]) ==> readings[i].raw in kept + added
    ensures kept + added == [] <==> forall i :: 0 <= i < |readings| ==> !IsAccepted(readings[i])
  {
    var p := readings[..|readings| - 1];
    assert forall i :: 0 <= i < |p| ==> p[i] == readings[i];
  }

  /**
   * The readings the range filter accepts, in order: each accepted value
   * occurs as often as it was read, and nothing else occurs.
   */
  function Accepted(readings: seq<AdcRead>): (r: seq<int>)
    ensures |r| <= |readings|
    ensures |r| == |AcceptedPositions(readings)|
    ensures forall x :: multiset(r)[x] == |AcceptedPositionsOf(readings, x)|
    ensures forall i :: 0 <= i < |r| ==> InAdcRange(r[i])
    ensures forall i :: 0 <= i < |readings| && IsAccepted(readings[i]) ==> readings[i].raw in r
    ensures r == [] <==> forall i :: 0 <= i < |readings| ==> !IsAccepted(readings[i])
  {
    if |readings| == 0 then []
    else
      var last := readings[|readings| - 1];
      var kept := Accepted(readings[..|readings| - 1]);
      var added := if IsAccepted(last) then [last.raw] else [];
      AcceptedCountStep(readings, kept, added);
      AcceptedMembershipStep(readings, kept, added);
      kept + added
  }

  /** Outcome of the sampling loop of measure_and_send. */
  datatype Sampling = Average(sum: int, count: nat) | ReadFailed(code: ErrCode) | NoValidReading

  /**
   * Reference definition of the sampling loop: any read error wins, even
   * after accepted samples; otherwise the in-range readings are summed and
   * counted, and none at all is a failure.
   */
  function SampleOf(readings: seq<AdcRead>): (r: Sampling)
    ensures r.Average? ==> 1 <= r.count <= |readings| && 0 <= r.sum <= r.count * ADC_MAX_VALUE
    ensures r.ReadFailed? <==> exists i :: 0 <= i < |readings| && readings[i].ReadError?
    ensures r.NoValidReading? <==>
              && FirstError(readings).None?
              && forall i :: 0 <= i < |readings| ==> !IsAccepted(readings[i])
    ensures r.Average? ==> r.count == |Accepted(readings)| && r.sum == Sum(Accepted(readings))
    ensures r.Average? ==> r.count == |AcceptedPositions(readings)|
  {
    match FirstError(readings)
    case Some(code) => ReadFailed(code)
    case None =>
      var accepted := Accepted(readings);
      SumBounds(accepted);
      if |accepted| == 0 then NoValidReading else Average(Sum(accepted), |accepted|)
  }

  lemma {:induction false} SumBounds(xs: seq<int>)
    requires forall i :: 0 <= i < |xs| ==> InAdcRange(xs[i])
    ensures 0 <= Sum(xs) <= |xs| * ADC_MAX_VALUE
  {
    if |xs| > 0 {
      SumBounds(xs[..|xs| - 1]);
    }
  }

  lemma {:induction false} FirstErrorPersists(readings: seq<AdcRead>, n: nat)
    requires n <= |readings|
    requires FirstError(readings[..n]).Some?
    ensures FirstError(readings) == FirstError(readings[..n])
    decreases |readings| - n
  {
    if n < |readings| {
      assert readings[..n + 1][..n] == readings[..n];
      FirstErrorPersists(readings, n + 1);
    } else {
      assert readings[..n] == readings;
    }
  }

  /** The loop state after `i` reads: no error yet, and the accepted readings counted and summed. */
  predicate Scanned(readings: seq<AdcRead>, i: nat, count: int, sum: int)
    requires i <= |readings|
  {
    && FirstError(readings[..i]).None?
    && count == |Accepted(readings[..i])|
    && sum == Sum(Accepted(readings[..i]))
  }

  /** A successful read extends the scan, counting the value only when it is in range. */
  lemma ScanStep(readings: seq<AdcRead>, i: nat, count: int, sum: int)
    requires i < |readings| && readings[i].Sample?
    requires Scanned(readings, i, count, sum)
    ensures var raw := readings[i].raw;
            if InAdcRange(raw) then Scanned(readings, i + 1, count + 1, sum + raw)
            else Scanned(readings, i + 1, count, sum)
  {
    var prefix := readings[..i + 1];
    assert prefix[..i] == readings[..i];
    var before := Accepted(readings[..i]);
    var raw := readings[i].raw;
    if InAdcRange(raw) {
      assert Accepted(prefix) == before + [raw];
      assert (before + [raw])[..|before|] == before;
    } else {
      assert Accepted(prefix) == before;
    }
  }

  /** A failed read after an error-free scan decides the result. */
  lemma ScanError(readings: seq<AdcRead>, i: nat, count: int, sum: int)
    requires i < |readings| && readings[i].ReadError?
    requires Scanned(readings, i, count, sum)
    ensures SampleOf(readings) == ReadFailed(readings[i].code)
  {
    assert readings[..i + 1][..i] == readings[..i];
    FirstErrorPersists(readings, i + 1);
  }

  /** A complete error-free scan decides the result. */
  lemma ScanDone(readings: seq<AdcRead>, count: int, sum: int)
    requires Scanned(readings, |readings|, count, sum)
    ensures count == 0 ==> SampleOf(readings) == NoValidReading
    ensures count != 0 ==> SampleOf(readings) == Average(sum, count)
  {
    assert readings[..|readings|] == readings;
  }

  /**
   * The sampling loop of measure_and_send as sensor.c:50-75 writes it: up to
   * ADC_SAMPLES reads, returning on the first error, skipping out-of-range
   * values without counting them.
   */
  method SampleAverage(readings: seq<AdcRead>) returns (r: Sampling)
    requires |readings| == ADC_SAMPLES
    ensures r == SampleOf(readings)
  {
    var adcSum := 0;
    var realNumberOfSamples := 0;
    var i := 0;
    while i < ADC_SAMPLES
      invariant i <= ADC_SAMPLES
      invariant Scanned(readings, i, realNumberOfSamples, adcSum)
    {
      var read := readings[i];
      if read.ReadError? {
        ScanError(readings, i, realNumberOfSamples, adcSum);
        return ReadFailed(read.code);
      }
      ScanStep(readings, i, realNumberOfSamples, adcSum);
      if InAdcRange(read.raw) {
        realNumberOfSamples := realNumberOfSamples + 1;
        adcSum := adcSum + read.raw;
      }
      i := i + 1;
    }
    ScanDone(readings, realNumberOfSamples, adcSum);
    if realNumberOfSamples == 0 {
      return NoValidReading;
    }
    return Average(adcSum, realNumberOfSamples);
  }

  /** `(float)adc_sum / real_number_of_samples`, taken as exact. */
  function MeanRaw(sum: int, count: nat): real
    requires count > 0
  {
    sum as real / count as real
  }

  /** An accepted average is itself a valid raw reading. */
  lemma AverageWithinAdcRange(readings: seq<AdcRead>)
    requires SampleOf(readings).Average?
    ensures var r := SampleOf(readings); 0.0 <= MeanRaw(r.sum, r.count) <= ADC_MAX_VALUE as real
  {
    var r := SampleOf(readings);
    MeanWithin(r.sum, r.count);
  }

  lemma MeanWithin(sum: int, count: nat)
    requires 1 <= count && 0 <= sum <= count * ADC_MAX_VALUE
    ensures 0.0 <= MeanRaw(sum, count) <= ADC_MAX_VALUE as real
  {
    var mean := MeanRaw(sum, count);
    assert mean * count as real == sum as real;
  }

  /** How send_data enters the result: absent unless the build defines SEND_DATA. */
  datatype Delivery = NotCompiled | Sent(status: EspErr)

  function DeliveryStatus(d: Delivery): EspErr
  {
    match d
    case NotCompiled => EspOk
    case Sent(status) => status
  }

  /**
   * What one measure_and_send call observes: whether the ADC handle exists,
   * the ADC_SAMPLES read results, the two esp_timer_get_time values (the
   * stamp and the elapsed-time reading), the SNTP outcome and the delivery.
   */
  datatype MeasureEnv = MeasureEnv(
    adcReady: bool,
    readings: seq<AdcRead>,
    stampTime: Timestamp,
    nowTime: Timestamp,
    timeSynced: bool,
    delivery: Delivery)

  /** Elapsed whole seconds, computed in `uint64_t` as sensor.c:95 does. */
  function ElapsedSec(now: Timestamp, first: Uint64): Uint64
  {
    Uint64Sub(now, first) / US_PER_SEC
  }

  /** The window start after a measurement: stamped only when the window is empty. */
  function WindowStart(d: Data, stampTime: Timestamp): Uint64
  {
    if d.measurementCount == 0 then stampTime else d.firstMeasurementTime
  }

  /** Result of measure_and_send: the returned code and the store afterwards. */
  datatype Measured = Measured(status: EspErr, store: Store)

  /**
   * measure_and_send. A missing handle, a read error or no accepted sample
   * returns an error and leaves the store alone. Otherwise the window is
   * stamped if empty, the count goes up by one, and, only when time sync
   * succeeded, a window older than MEASUREMENT_WINDOW_SEC is abandoned.
   * Every write is direct: the CRC is never refreshed here.
   */
  function MeasureAndSend(s: Store, env: MeasureEnv): (m: Measured)
    requires |env.readings| == ADC_SAMPLES
    ensures !env.adcReady ==> m == Measured(ErrInvalidArg, s)
    ensures env.adcReady && SampleOf(env.readings).ReadFailed? ==>
              m == Measured(SampleOf(env.readings).code, s)
    ensures env.adcReady && SampleOf(env.readings).NoValidReading? ==>
              m == Measured(ErrInvalidResponse, s)
    ensures m.store.crc == s.crc
    ensures m.store.data.bootCount == s.data.bootCount
    ensures m.store.data.calibratedResistor == s.data.calibratedResistor
    ensures m.store.data.wifiConfig == s.data.wifiConfig
    ensures env.adcReady && SampleOf(env.readings).Average? ==>
              var first := WindowStart(s.data, env.stampTime);
              var expired := env.timeSynced && ElapsedSec(env.nowTime, first) >= MEASUREMENT_WINDOW_SEC;
              && (expired ==> m.store.data.measurementCount == 0
                              && m.store.data.firstMeasurementTime == 0)
              && (!expired ==> m.store.data.measurementCount == Int32Inc(s.data.measurementCount)
                               && m.store.data.firstMeasurementTime == first)
              && m.status == (if env.timeSynced then DeliveryStatus(env.delivery) else EspOk)
  {
    if !env.adcReady then Measured(ErrInvalidArg, s)
    else match SampleOf(env.readings)
      case ReadFailed(code) => Measured(code, s)
      case NoValidReading => Measured(ErrInvalidResponse, s)
      case Average(_, _) =>
        var first := WindowStart(s.data, env.stampTime);
        var counted := s.data.(firstMeasurementTime := first,
                               measurementCount := Int32Inc(s.data.measurementCount));
        var elapsed := ElapsedSec(env.nowTime, counted.firstMeasurementTime);
        if !env.timeSynced then
          Measured(EspOk, s.(data := counted))
        else if elapsed >= MEASUREMENT_WINDOW_SEC then
          Measured(DeliveryStatus(env.delivery),
                   s.(data := counted.(measurementCount := 0, firstMeasurementTime := 0)))
        else
          Measured(DeliveryStatus(env.delivery), s.(data := counted))
  }

  /**
   * A window stamp later than the clock reading (a stamp carried over from an
   * earlier boot, for instance) makes the `uint64_t` subtraction wrap, so the
   * window always counts as expired.
   */
  lemma StampAheadOfClockExpiresWindow(now: Timestamp, first: Timestamp)
    requires now < first
    ensures ElapsedSec(now, first) >= MEASUREMENT_WINDOW_SEC
  {
  }

  /** A measurement keeps the count within the quota plus the one it adds. */
  lemma MeasurementCountBounded(s: Store, env: MeasureEnv)
    requires |env.readings| == ADC_SAMPLES
    requires 0 <= s.data.measurementCount <= REQUIRED_MEASUREMENTS
    ensures 0 <= MeasureAndSend(s, env).store.data.measurementCount <= REQUIRED_MEASUREMENTS + 1
  {
  }

  /** calibrate_sensor reads ADC_SAMPLES * 2 values. */
  const CALIBRATION_SAMPLES: int := ADC_SAMPLES * 2

  /** What one calibrate_sensor call observes: the raw readings and the NVS outcome. */
  datatype CalibrationEnv = CalibrationEnv(raws: seq<Int32>, backup: NvsAccess)

  /** Result of calibrate_sensor: the store and the NVS slot afterwards. */
  datatype Calibrated = Calibrated(store: Store, nvs: Nvs)

  /**
   * calibrate_sensor: averages ALL its readings (no range filter), derives a
   * new resistor from the average by float maths (`resistorOf`), resets the
   * window through update_rtc_data, keeps boot_count, and backs the result up.
   */
  function Calibrate(crc: CrcFn, s: Store, nvs: Nvs, env: CalibrationEnv,
                     resistorOf: real -> real): (c: Calibrated)
    requires |env.raws| == CALIBRATION_SAMPLES
    ensures c.store.data.bootCount == s.data.bootCount
    ensures c.store.data.measurementCount == 0
    ensures c.store.data.firstMeasurementTime == 0
    ensures c.store.data.calibratedResistor ==
              resistorOf(Sum(env.raws) as real / CALIBRATION_SAMPLES as real)
    ensures c.store.data.wifiConfig == s.data.wifiConfig
    ensures Consistent(crc, c.store)
    ensures env.backup.openOk && env.backup.transferOk ==> c.nvs == Some(c.store.data)
    ensures !(env.backup.openOk && env.backup.transferOk) ==> c.nvs == nvs
  {
    var rawValue := Sum(env.raws) as real / CALIBRATION_SAMPLES as real;
    var newResistor := resistorOf(rawValue);
    var updated := Update(crc, s, s.data.bootCount, 0, 0, newResistor);
    Calibrated(updated, Backup(updated, nvs, env.backup))
  }

  /**
   * A calibration that reached NVS outlives a corrupted RTC store: the next
   * init with a readable NVS brings back exactly the calibrated store.
   */
  lemma CalibrationSurvivesStoreCorruption(crc: CrcFn, s: Store, nvs: Nvs, env: CalibrationEnv,
                                           resistorOf: real -> real, corrupted: Store,
                                           read: NvsAccess)
    requires |env.raws| == CALIBRATION_SAMPLES
    requires env.backup.openOk && env.backup.transferOk
    requires read.openOk && read.transferOk
    requires !IsValid(crc, corrupted)
    ensures Init(crc, corrupted, Calibrate(crc, s, nvs, env, resistorOf).nvs, read) ==
              Calibrate(crc, s, nvs, env, resistorOf).store
  {
  }
}

=== FILE: wifi_manager.dfy ===
/**
 * The store-visible part of a Wi-Fi connection attempt (main/wifi_manager.c)
 * and the bounded retry loop of handle_measurements (main/main.c). The radio,
 * the event handler and the waits are nondeterministic outcomes here.
 */
module WifiManager {
  import opened Config
  import opened RtcStore

  /**
   * One wifi_quick_connect call: connected inside wifi_init (which records
   * the station configuration and bumps boot_count), connected only in the
   * later wait (no store effect), or not connected at all.
   */
  datatype Attempt = ConnectedInInit | ConnectedLater | NoConnection

  /** The store effect of one attempt; like `wifi_init` (wifi_manager.c:119-120), it leaves the CRC stale. */
  function ApplyAttempt(s: Store, a: Attempt, station: WifiConfig): (r: Store)
    ensures a.ConnectedInInit? ==>
              && r.data == s.data.(wifiConfig := station, bootCount := Int32Inc(s.data.bootCount))
              && r.crc == s.crc
    ensures !a.ConnectedInInit? ==> r == s
  {
    match a
    case ConnectedInInit =>
      s.(data := s.data.(wifiConfig := station, bootCount := Int32Inc(s.data.bootCount)))
    case _ => s
  }

  /** The position of the first connecting attempt among the first `limit`, or `limit`. */
  function FirstConnected(attempts: seq<Attempt>, limit: nat): (k: nat)
    requires limit <= |attempts|
    ensures k <= limit
    ensures k < limit ==> !attempts[k].NoConnection?
    ensures forall j :: 0 <= j < k ==> attempts[j].NoConnection?
  {
    if limit == 0 then 0
    else
      var k := FirstConnected(attempts, limit - 1);
      if k < limit - 1 then k
      else if attempts[limit - 1].NoConnection? then limit
      else limit - 1
  }

  /** Result of the retry loop: connected or not, how many attempts were made, the store. */
  datatype Connection = Connection(connected: bool, tries: nat, store: Store)

  /**
   * Reference definition of the retry loop: attempts run until the first
   * success, at most MAX_WIFI_RETRIES of them.
   */
  function Connect(s: Store, attempts: seq<Attempt>, station: WifiConfig): (c: Connection)
    requires |attempts| >= MAX_WIFI_RETRIES
    ensures 1 <= c.tries <= MAX_WIFI_RETRIES
    ensures c.connected <==> exists k :: 0 <= k < MAX_WIFI_RETRIES && !attempts[k].NoConnection?
    ensures forall j :: 0 <= j < c.tries - 1 ==> attempts[j].NoConnection?
    ensures c.connected ==>
              && !attempts[c.tries - 1].NoConnection?
              && c.store == ApplyAttempt(s, attempts[c.tries - 1], station)
    ensures !c.connected ==> c.tries == MAX_WIFI_RETRIES && c.store == s
  {
    var k := FirstConnected(attempts, MAX_WIFI_RETRIES);
    if k < MAX_WIFI_RETRIES then Connection(true, k + 1, ApplyAttempt(s, attempts[k], station))
    else Connection(false, MAX_WIFI_RETRIES, s)
  }

  /**
   * The loop of handle_measurements: call wifi_quick_connect while not
   * connected and fewer than MAX_WIFI_RETRIES attempts have failed. (The
   * `break` on success at main.c:66-69 is the loop condition's `connected` here.)
   */
  method ConnectWithRetries(s: Store, attempts: seq<Attempt>, station: WifiConfig)
    returns (c: Connection)
    requires |attempts| >= MAX_WIFI_RETRIES
    ensures c == Connect(s, attempts, station)
  {
    var wifiRetry := 0;
    var connected := false;
    var store := s;
    while !connected && wifiRetry < MAX_WIFI_RETRIES
      invariant 0 <= wifiRetry <= MAX_WIFI_RETRIES
      invariant forall j :: 0 <= j < wifiRetry ==> attempts[j].NoConnection?
      invariant !connected ==> store == s
      invariant connected ==>
                  && wifiRetry < MAX_WIFI_RETRIES
                  && !attempts[wifiRetry].NoConnection?
                  && store == ApplyAttempt(s, attempts[wifiRetry], station)
    {
      var outcome := attempts[wifiRetry];
      store := ApplyAttempt(store, outcome, station);
      if !outcome.NoConnection? {
        connected := true;
      } else {
        wifiRetry := wifiRetry + 1;
      }
    }
    if connected {
      c := Connection(true, wifiRetry + 1, store);
    } else {
      c := Connection(false, wifiRetry, store);
    }
  }
}

=== FILE: wrappers.dfy ===
/** Optional values: the NVS blob slot and "first error seen" results. */
module Wrappers {

  datatype Option<+T> = None | Some(value: T)
}
